=== FILE: README.md ===
# Session, role guard and store actions of the SISPA back-office client

The SISPA front end is a single-page client. All of its business logic lives on a
remote REST backend. On the client, the only decision logic sits in two places:

- the **role guard**, which decides whether a navigation may proceed;
- the **Pinia stores**, which turn each backend answer into a change of cached state.

This project models that logic in Dafny:

- `RoleGuard` (guard.dfy) covers `roleGuard` and its role table. It reads the stored
  role, defaulting to `"guest"`. It looks the role up exactly and case-sensitively, and
  it proceeds only when the target path is exactly one of the role's paths. Otherwise it
  redirects to `"/"`.
- `AuthStore` (session.dfy) is the session store. It covers `login`, `loginAsAGuest`,
  `logout`, `register` and `getRoles`, each as a pure function from the old state and
  the backend's answer to the new state and the return value. `Step`/`Run` replay a
  sequence of actions, and the pairing of user and token is proved for every run.
- `PurchaseOrderStore` (purchase_order.dfy) stands for the uniform store pattern. It
  covers `create`, `fetchAll`, `fetchDetail`, `deletePurchaseOrder` (filter by id and
  bump `refreshKey`) and `downloadPurchaseOrder` (missing-PDF check and fallback file
  name).
- `VendorStore` (vendor.dfy) covers `getVendors`, `getVendorById`, `addVendor`,
  `updateVendor` and `deleteVendor`. This includes the URL that `getVendorById` builds.
- `Lists` (lists.dfy) is the `filter(x => x.id !== id)` both stores use, with its
  characterisation: membership, concatenation, idempotence and preserved order.
  `Decimal` (decimal.dfy) is the rendering of an integral number inside a template
  literal, with its parse round trip.
- `Common` (common.dfy) holds the shared types:
  - `Option`;
  - `JsError`, a thrown error with its `name` and `message`;
  - the JavaScript `a || fallback` on optional strings, where `""` is falsy;
  - `Response<T>`, the outcome of one request. It is either `Replied(ok, data, message)`,
    where `ok` is `response.ok`, or `Threw(error)`. `Threw` covers a network failure, a
    token that will not decode, and a success branch that reads a field of a missing
    payload (see "## Left out"). Every action except `deleteVendor` parses the body before
    it tests `ok`, so for them malformed JSON is a `Threw` too. `deleteVendor` parses the
    body only after a refusal (src/stores/vendor.ts:139-144).

Each action is atomic: it starts with `loading := true; error := null` and ends with its
`finally` clause. The guard's behaviour, as the code states it:

- it matches the target path exactly against the role's list (src/router/guards/auth.ts:18);
- it looks the role up by exact, case-sensitive key (src/router/guards/auth.ts:16);
- it has no role that bypasses the table and no redirect other than to "/"
  (src/router/guards/auth.ts:14-23).

`register` ends with `loading` still true because its `finally` sets it to `true`. The
model keeps this as written.

## Model

| member | source | states |
|---|---|---|
| RoleGuard.EffectiveRole | src/router/guards/auth.ts:4 | A missing or empty stored role acts as "guest". Any other stored role is used verbatim. The effective role is never empty. |
| RoleGuard.Decide | src/router/guards/auth.ts:14-23 | The guard only ever proceeds or redirects to exactly "/". It proceeds only for a role the table lists. |
| RoleGuard.FromIsIrrelevant | src/router/guards/auth.ts:14-23 | The decision does not depend on the route the navigation comes from. |
| RoleGuard.MissingRoleIsGuest | src/router/guards/auth.ts:4 | No stored role, or an empty one, gets exactly the guest's decisions. |
| RoleGuard.UnknownRoleRedirects | src/router/guards/auth.ts:16-21 | A role absent from the table gets an empty allow-list, so every navigation is redirected to "/". |
| RoleGuard.GuestReachesOnlyHome | src/router/guards/auth.ts:4-10 | A guest, or a visitor with no stored role, may proceed if and only if the target is "/". |
| RoleGuard.StaffWithinAdmin | src/router/guards/auth.ts:8-9 | Every path staff may reach, admin may reach too. |
| RoleGuard.Permissions | src/router/guards/auth.ts:7-11 | The role table. A role other than admin, staff or guest gets no paths, and every listed path starts with "/". |
| RoleGuard.Guard | src/router/guards/auth.ts:14-23 | The guard only proceeds or redirects to exactly "/", and it proceeds only for a role the table lists and a target that starts with "/". |
| RoleGuard.StaffPathsExact | src/router/guards/auth.ts:9-21 | Staff proceeds if and only if the target is "/dashboard" or "/inventory". |
| RoleGuard.AdminPathsExact | src/router/guards/auth.ts:8-21 | Admin proceeds if and only if the target is one of its six listed paths. |
| RoleGuard.NoPrefixMatching | src/router/guards/auth.ts:18-21 | For every role, a listed path proceeds, but a strict extension of it that is not itself listed is redirected to "/". |
| RoleGuard.NoPrefixMatchingExample | src/router/guards/auth.ts:9-21 | Staff reaches "/inventory" but is redirected from "/inventory/5". |
| RoleGuard.RolesAreCaseSensitive | src/router/guards/auth.ts:7-16 | "Admin" is an unknown role and is redirected everywhere, while "admin" reaches "/finance". |
| RoleGuard.RoleGuardAsWritten | src/router/guards/auth.ts:16-18 | The guard as written throws a TypeError exactly when the effective role names an inherited Object.prototype member. |
| RoleGuard.AsWrittenThrowsOnInheritedName | src/router/guards/auth.ts:16-18 | With role "constructor" the code as written throws, where the corrected guard redirects to "/". |
| RoleGuard.AsWrittenAgreesOtherwise | src/router/guards/auth.ts:14-23 | For every role that is not an inherited member name, the code as written and the corrected guard decide alike. |
| AuthStore.Login | src/stores/auth.ts:22-59 | Returns true if and only if the answer is ok. On ok, the token is stored and the user is built from sub/name/role, each defaulting to "". Otherwise user and token are kept. A refusal leaves error null. A thrown request stores the exception message. Loading ends false. |
| AuthStore.UserFromClaims | src/stores/auth.ts:37-41 | A present, non-empty claim is copied into the user record. The role is empty exactly when the role claim is missing or empty. |
| AuthStore.LoginAsAGuest | src/stores/auth.ts:61-89 | Whatever the prior state, ends with the guest user, token "guest", no error and not loading. |
| AuthStore.Logout | src/stores/auth.ts:91-110 | Whatever the prior state, ends with no user, no token, no error and not loading. |
| AuthStore.LogoutIdempotent | src/stores/auth.ts:91-110 | Logging out twice equals logging out once. |
| AuthStore.Register | src/stores/auth.ts:112-146 | Never changes user or token. Returns true if and only if the answer is ok. A thrown request stores "Gagal menambahkan user: " + message. Every outcome leaves loading true. |
| AuthStore.GetRoles | src/stores/auth.ts:148-180 | Returns the payload if and only if the answer is ok. A thrown request stores the prefixed message. Identity is unchanged and loading ends false. |
| AuthStore.FailedLoginKeepsIdentity | src/stores/auth.ts:48-55 | A refused or thrown login returns false and keeps the prior user and token. |
| AuthStore.StepKeepsPaired | src/stores/auth.ts:22-180 | Every action preserves "user and token are both set or both unset". |
| AuthStore.RunKeepsPaired | src/stores/auth.ts:15-180 | Every sequence of actions from a paired state, including the initial one, ends paired. |
| AuthStore.StepForgetsPriorError | src/stores/auth.ts:23-24 | Every action clears the error at its start. The prior error and loading flag never affect the result. |
| AuthStore.StepSettles | src/stores/auth.ts:143-144 | Every action except register ends not loading. Register always ends loading. |
| PurchaseOrderStore.Create | src/stores/purchaseOrder.ts:21-54 | Returns true if and only if the answer is ok. The orders, the selection and refreshKey are never modified. A thrown request stores the message. Loading ends false. |
| PurchaseOrderStore.FetchAll | src/stores/purchaseOrder.ts:55-83 | On ok, the orders become the payload, or [] when it is absent. On a refusal, the orders are kept and error is the message or "Failed to fetch purchase orders.". On a throw, the orders are kept and error is the message. |
| PurchaseOrderStore.ListOrEmpty | src/stores/purchaseOrder.ts:71 | The cached list holds exactly the payload's orders, with the same length, or nothing when the payload is absent. |
| PurchaseOrderStore.FetchDetail | src/stores/purchaseOrder.ts:84-114 | The selection is cleared before the request. On ok, the selection becomes the payload. Otherwise it stays null and error is the message or its fallback. |
| PurchaseOrderStore.DeletePurchaseOrder | src/stores/purchaseOrder.ts:117-146 | On ok, exactly the orders with a different id survive and refreshKey grows by exactly 1. Otherwise orders and refreshKey are unchanged and error is the message or its fallback. |
| PurchaseOrderStore.DeleteKeepsOrder | src/stores/purchaseOrder.ts:133 | After an ok delete, surviving orders keep their relative order. |
| PurchaseOrderStore.DeleteAbsentKeepsOrders | src/stores/purchaseOrder.ts:133 | Deleting an id that no cached order carries leaves the list exactly unchanged. |
| PurchaseOrderStore.DeleteTwiceIsDeleteOnce | src/stores/purchaseOrder.ts:133-134 | A second ok delete of the same id removes nothing more. Each delete still bumps refreshKey. |
| PurchaseOrderStore.DownloadPurchaseOrder | src/stores/purchaseOrder.ts:147-202 | A file is offered if and only if the answer is ok with a non-empty pdf. Its name is fileName, or purchase_order_<id>.pdf when that is missing. If the pdf is missing the error is "PDF data not found in response". A refusal stores its message or "Failed to download PDF: " + statusText. Orders are untouched. |
| PurchaseOrderStore.FallbackFileNameInjective | src/stores/purchaseOrder.ts:178 | Distinct ids give distinct fallback file names. |
| PurchaseOrderStore.StepForgetsPriorFlags | src/stores/purchaseOrder.ts:23-24 | Every action clears the error at its start and ends not loading. The prior error and loading flag never affect the result. |
| PurchaseOrderStore.StepFrames | src/stores/purchaseOrder.ts:12-19 | No action changes selectedPurchaseOrders. Only a delete changes refreshKey. |
| VendorStore.GetVendors | src/stores/vendor.ts:18-37 | The list is replaced by the payload whatever the HTTP status. Only a thrown request keeps it, and then error is "Failed to fetch vendors " + the error's string form. |
| VendorStore.GetVendorById | src/stores/vendor.ts:38-57 | The current vendor becomes the payload whatever the status. A thrown request keeps it and stores "Failed to fetch vendors " followed by the error's string form as Error.prototype.toString gives it. The list is never touched. |
| VendorStore.VendorByIdUrlAsWritten | src/stores/vendor.ts:43 | The code as written builds the URL from a single-quoted string, so the id never reaches it. |
| VendorStore.AsWrittenUrlIgnoresId | src/stores/vendor.ts:43 | Any two ids are requested through the same URL. |
| VendorStore.VendorByIdUrl | src/stores/vendor.ts:43 | The corrected URL is the API base, then "/vendor/", then the id. |
| VendorStore.VendorByIdUrlInjective | src/stores/vendor.ts:43 | Under the corrected URL, different ids give different URLs. |
| VendorStore.AddVendor | src/stores/vendor.ts:59-90 | A reply returns its ok flag. A thrown request returns nothing (undefined) and stores "Gagal menambahkan vendor: " + message. The list is untouched. |
| VendorStore.UpdateVendor | src/stores/vendor.ts:92-124 | Returns true if and only if the answer is ok. A refusal or a thrown request returns false and keeps the list. A throw stores "Gagal mengupdate vendor: " + message. |
| VendorStore.UpdateThenReload | src/stores/vendor.ts:109-112 | After an ok update the store equals a fresh getVendors with the reload's answer. |
| VendorStore.DeleteVendor | src/stores/vendor.ts:126-153 | On ok, exactly the vendors with a different id survive. A refusal keeps the list and error null. A throw keeps the list and stores "Gagal menghapus vendor: " + message. |
| VendorStore.DeleteVendorKeepsOrder | src/stores/vendor.ts:140 | After an ok delete, surviving vendors keep their relative order. |
| VendorStore.DeleteVendorIgnoresOkBody | src/stores/vendor.ts:139-142 | Every ok answer to a delete leaves the same state with error null, whatever its body holds. |
| VendorStore.StepForgetsPriorFlags | src/stores/vendor.ts:19-20 | Every action clears the error at its start and ends not loading. The prior error and loading flag never affect the result. |
| Lists.Without | src/stores/purchaseOrder.ts:133 | The filter keeps an element if and only if it was in the list and its key differs from the deleted id. It never lengthens the list. |
| Lists.WithoutAppend | src/stores/vendor.ts:140 | Filtering works element by element: filtering a concatenation concatenates the filtered parts. |
| Lists.WithoutAbsent | src/stores/vendor.ts:140 | Filtering by a key no element has returns the list unchanged. |
| Lists.WithoutIdempotent | src/stores/purchaseOrder.ts:133 | Filtering twice by the same key equals filtering once. |
| Lists.WithoutKeepsOrder | src/stores/purchaseOrder.ts:133 | Two elements that survive the filter keep their relative order. |
| Decimal.IntToString | src/stores/purchaseOrder.ts:178 | Rendering an integer gives a canonical literal: "0" or digits without a leading zero, preceded by a minus sign if and only if the integer is negative (never "-0" or a lone "-"). |
| Common.ErrorToString | src/stores/vendor.ts:33 | The `${err}` form of an error begins with its name and ends with its message. It is empty only when both are empty. |
| Common.OrElse | src/stores/purchaseOrder.ts:74 | The JavaScript fallback `a or fallback` gives the value when it is present and non-empty, and the fallback otherwise. |
| PurchaseOrderStore.FallbackFileName | src/stores/purchaseOrder.ts:178 | The fallback name is "purchase_order_", then the id's canonical decimal literal (no leading zero, no "-0", no lone "-"), then ".pdf". The literal reads back to the id. |
| Decimal.NatToString | src/stores/purchaseOrder.ts:178 | Rendering an id gives a non-empty string of decimal digits with no leading zero. |
| Decimal.IntToStringRoundTrip | src/stores/purchaseOrder.ts:178 | Reading back a rendered integer gives the integer. |
| Decimal.IntToStringInjective | src/stores/purchaseOrder.ts:178 | Distinct integers render differently. |

## Left out

- Network, JSON decoding, `jwtDecode`, `atob`/`Blob` and the DOM download link are not
  modelled. They appear only as the `Response` or `DownloadResponse` value an action
  receives. A failure in any of them is a `Threw` or `Failed` outcome.
- `window.$toast` and `router.push` are not modelled. They are assumed not to throw. If a
  toast threw inside `login`'s success branch, the source would fall into its `catch`.
- Pinia plumbing, `persist: true`, `localStorage` writes, `src/main.ts` and router
  construction are framework wiring. They are not modelled. The guard receives the
  stored role as a parameter. Nothing shown registers the guard or writes its
  "userRole" key.
- The other stores (account, client, category, item, itemStatus, freelancer, invoice,
  transaction, finalReport, user) repeat the purchase-order pattern and are left out.
  `finalReport.downloadReport` is base64 and DOM work.
- The request bodies, headers and bearer tokens that actions send are not modelled. The
  one exception is the `getVendorById` URL.
- Overlapping asynchronous actions are not modelled. Each action is atomic.
- AuthStore.Login: claims are taken to be strings or missing. A non-string claim, such as
  a numeric `sub`, would be stored as that value in the source.
- AuthStore.GetRoles: returns the envelope's `data` rather than the whole envelope
  object. The role listing's shape is not part of this model.
- VendorStore.GetVendors: assumes the envelope always carries a list. An answer without
  `data` would leave `vendors` undefined in the source, and a later `deleteVendor` would
  then throw.
- AuthStore.Login: an ok answer whose envelope has no `data` makes the read of
  `data.data.token` (src/stores/auth.ts:36) throw. The source then returns false and stores
  the TypeError's message. `Credential` cannot express a missing payload, so that answer is
  given to the model as `Threw`.
- AuthStore.Register: an ok answer without `data` makes `data.data.username`
  (src/stores/auth.ts:131) throw. The source then returns false with the prefixed error. The
  model receives that answer as `Threw`.
- VendorStore.AddVendor: an ok answer without `data` makes `data.data.id`
  (src/stores/vendor.ts:75) throw. The source then returns undefined with the prefixed error.
  The model receives that answer as `Threw`.
- VendorStore.UpdateVendor: an ok answer without `data` makes `data.data.id`
  (src/stores/vendor.ts:110) throw. The source then returns false with the prefixed error and
  does not reload. The model receives that answer as `Threw`.
- PurchaseOrderStore.DeletePurchaseOrder: `refreshKey` is an unbounded natural. The
  source's floating-point number stops counting exactly above 2^53.
- Decimal.IntToString: ids are taken to be integers. The source's template literal
  renders numbers from 10^21 upwards in exponent notation and renders -0 as "0".
- PurchaseOrderStore.FallbackFileName: inherits the integer-only rendering of
  `Decimal.IntToString`, so exponent-notation and -0 ids are not covered, and neither is
  their effect on `PurchaseOrderStore.FallbackFileNameInjective`.
- VendorStore.DeleteVendor: the ok branch reads no body (src/stores/vendor.ts:139-142), so
  every ok answer is given to the model as `Replied(true, …)`, including one whose body is
  empty or not JSON. Only a refusal's body is parsed (:144), and a parse failure there is a
  `Threw`.
- Numeric fields of purchase-order items are never inspected. They are modelled as
  integers.

## Findings

| source | as written | input that shows it | evidently intended | confidence | as-written member | corrected member |
|---|---|---|---|---|---|---|
| src/stores/vendor.ts:43 | The URL is the single-quoted `'/vendor/${id}'`, so the id is never substituted. | any two ids, e.g. getVendorById(token, "1") and getVendorById(token, "2"), request the same `<api>/vendor/${id}` | The backquoted `` `/vendor/${id}` ``, as deleteVendor builds its URL at line 131 | high, not executed | VendorStore.AsWrittenUrlIgnoresId | VendorStore.VendorByIdUrlInjective |
| src/router/guards/auth.ts:16-18 | `rolePermissions[userRole] \|\| []` reads inherited properties. A role such as "constructor" yields a function, and `.includes` then throws a TypeError. | stored role "constructor", any target path | An unknown role gets an empty allow-list and is redirected to "/" | high, not executed | RoleGuard.AsWrittenThrowsOnInheritedName | RoleGuard.Decide |

=== FILE: common.dfy ===
/**
  Values shared by every store: optional values, thrown JavaScript errors,
  the outcome of one backend request, and the pair an action hands back
  (the store's new state and the action's return value).
 */
module Common {

  /** `null`/`undefined` versus a present value. */
  datatype Option<+T> = None | Some(value: T)

  /** A thrown JavaScript `Error` object: its `name` ("Error", "TypeError", ...) and its `message`. */
  datatype JsError = JsError(name: string, message: string)

  /**
    What a template literal `${err}` yields for an Error object, i.e.
    Error.prototype.toString (section 20.5.3.4 of ECMA-262): the name and
    the message joined by ": ", or whichever of the two is not empty.
   */
  function ErrorToString(e: JsError): (s: string)
    ensures |s| >= |e.name| && s[..|e.name|] == e.name
    ensures |s| >= |e.message| && s[|s| - |e.message|..] == e.message
    ensures s == "" <==> e.name == "" && e.message == ""
  {
    if e.name == "" then e.message
    else if e.message == "" then e.name
    else e.name + ": " + e.message
  }

  /** JavaScript truthiness of a string that may be absent: `""`, `null` and `undefined` are falsy. */
  predicate Truthy(a: Option<string>) {
    a.Some? && a.value != ""
  }

  /** The JavaScript expression `a || fallback` where `a` is a string that may be absent. */
  function OrElse(a: Option<string>, fallback: string): (r: string)
    ensures Truthy(a) ==> r == a.value
    ensures !Truthy(a) ==> r == fallback
    ensures r == "" ==> fallback == ""
  {
    if Truthy(a) then a.value else fallback
  }

  /**
    The outcome of one `fetch` and the parsing of its body: either the
    backend answered (`ok` is `response.ok`, `data` and `message` are the
    envelope's fields), or something on the way threw (network failure,
    a token that does not decode, ...). Most actions parse the body with
    `response.json()` before testing `ok`, so malformed JSON is a throw for
    them; `deleteVendor` parses it only after a refusal, so any ok answer
    it gets is a reply.
   */
  datatype Response<+T> =
    | Replied(ok: bool, data: T, message: Option<string>)
    | Threw(error: JsError)
  {
    predicate Succeeded() { Replied? && ok }
    predicate Refused() { Replied? && !ok }
  }

  /** The store's state after an action, together with the value the action returns. */
  datatype Completed<+S, +R> = Completed(state: S, returned: R)
}

=== FILE: decimal.dfy ===
/**
  How a template literal renders an integral JavaScript number (`${id}`):
  optional minus sign, then decimal digits without leading zeros. Used for
  the fallback file name of a purchase-order download.
 */
module Decimal {

  predicate IsDigit(c: char) {
    '0' <= c <= '9'
  }

  predicate AllDigits(s: string) {
    forall i :: 0 <= i < |s| ==> IsDigit(s[i])
  }

  function DigitChar(d: nat): (c: char)
    requires d < 10
    ensures IsDigit(c)
  {
    (d + '0' as int) as char
  }

  function DigitValue(c: char): (d: nat)
    requires IsDigit(c)
  {
    c as int - '0' as int
  }

  /** The decimal digits of `n`, most significant first. */
  function NatToString(n: nat): (s: string)
    ensures |s| >= 1 && AllDigits(s)
    ensures n > 0 || |s| > 1 ==> s[0] != '0'
    decreases n
  {
    if n < 10 then [DigitChar(n)] else NatToString(n / 10) + [DigitChar(n % 10)]
  }

  /**
    A rendered integer in canonical form: "0", or digits without a leading
    zero, optionally after one minus sign (never "-0" or a lone "-").
   */
  predicate IsIntLiteral(s: string) {
    && |s| >= 1
    && (s[0] == '-' ==> |s| >= 2 && AllDigits(s[1..]) && s[1] != '0')
    && (s[0] != '-' ==> AllDigits(s) && (|s| > 1 ==> s[0] != '0'))
  }

  function IntToString(n: int): (s: string)
    ensures IsIntLiteral(s)
    ensures s[0] == '-' <==> n < 0
  {
    if n < 0 then "-" + NatToString(-n) else NatToString(n)
  }

  /** Reads back a string of decimal digits. */
  function ParseNat(s: string): (n: nat)
    requires AllDigits(s)
  {
    if |s| == 0 then 0 else 10 * ParseNat(s[..|s| - 1]) + DigitValue(s[|s| - 1])
  }

  function ParseInt(s: string): (n: int)
    requires IsIntLiteral(s)
  {
    if s[0] == '-' then 0 - ParseNat(s[1..]) else ParseNat(s)
  }

  lemma {:induction false} ParseNatToString(n: nat)
    ensures ParseNat(NatToString(n)) == n
    decreases n
  {
    var s := NatToString(n);
    if n >= 10 {
      assert s[..|s| - 1] == NatToString(n / 10);
      ParseNatToString(n / 10);
    }
  }

  /** Rendering an integer and reading it back gives the integer. */
  lemma IntToStringRoundTrip(n: int)
    ensures ParseInt(IntToString(n)) == n
  {
    if n < 0 {
      assert IntToString(n)[1..] == NatToString(-n);
      ParseNatToString(-n);
    } else {
      ParseNatToString(n);
    }
  }

  /** Distinct integers render to distinct strings. */
  lemma IntToStringInjective(a: int, b: int)
    ensures IntToString(a) == IntToString(b) ==> a == b
  {
    IntToStringRoundTrip(a);
    IntToStringRoundTrip(b);
  }
}

=== FILE: guard.dfy ===
/**
  The role guard of src/router/guards/auth.ts: a navigation proceeds exactly
  when the target path is one of the paths listed for the stored role, and
  every other navigation is sent to the home page "/".
 */
module RoleGuard {
  import opened Common

  /** What the guard passes to `next`: nothing (proceed) or a redirect target. */
  datatype Action = Proceed | Redirect(path: string)

  const Home := "/"
  const GuestRole := "guest"

  const AdminPaths: seq<string> := ["/dashboard", "/inventory", "/finance", "/client", "/vendor", "/staff-freelancer"]
  const StaffPaths: seq<string> := ["/dashboard", "/inventory"]
  const GuestPaths: seq<string> := ["/"]

  /**
    The role the guard acts for, given what local storage holds under
    "userRole": a missing or empty entry counts as the guest role.
   */
  function EffectiveRole(stored: Option<string>): (role: string)
    ensures role != ""
    ensures Truthy(stored) ==> role == stored.value
    ensures !Truthy(stored) ==> role == GuestRole
  {
    OrElse(stored, GuestRole)
  }

  /** The roles the table lists. */
  const KnownRoles: set<string> := {"admin", "staff", "guest"}

  /**
    The role table, looked up as an own property: roles are matched exactly,
    case included, and a role the table does not list gets no paths.
   */
  function Permissions(role: string): (paths: seq<string>)
    ensures role !in KnownRoles ==> paths == []
    ensures forall p :: p in paths ==> |p| >= 1 && p[0] == '/'
  {
    if role == "admin" then AdminPaths
    else if role == "staff" then StaffPaths
    else if role == "guest" then GuestPaths
    else []
  }

  /** The guard's decision for a navigation to `to` with `stored` in local storage. */
  function Decide(stored: Option<string>, to: string): (a: Action)
    ensures a == Proceed || a == Redirect(Home)
    ensures a == Proceed ==> EffectiveRole(stored) in KnownRoles
  {
    if to in Permissions(EffectiveRole(stored)) then Proceed else Redirect(Home)
  }

  /** `roleGuard(to, from, next)`: the route the navigation comes from plays no part. */
  function Guard(stored: Option<string>, to: string, from: string): (a: Action)
    ensures a == Proceed || a == Redirect(Home)
    ensures a == Proceed ==> EffectiveRole(stored) in KnownRoles && |to| >= 1 && to[0] == '/'
  {
    Decide(stored, to)
  }

  /** Two navigations to the same target from different routes get the same decision. */
  lemma FromIsIrrelevant(stored: Option<string>, to: string, from1: string, from2: string)
    ensures Guard(stored, to, from1) == Guard(stored, to, from2)
  {
  }

  /** With nothing stored, the guard acts exactly as for the guest role. */
  lemma MissingRoleIsGuest(to: string)
    ensures Decide(None, to) == Decide(Some(GuestRole), to)
    ensures Decide(Some(""), to) == Decide(Some(GuestRole), to)
  {
  }

  /** A role outside the table can go nowhere: every navigation is sent home. */
  lemma UnknownRoleRedirects(role: string, to: string)
    requires role != "" && role !in KnownRoles
    ensures Decide(Some(role), to) == Redirect(Home)
  {
  }

  /** A guest, and so a visitor with no stored role, reaches "/" and nothing else. */
  lemma GuestReachesOnlyHome(stored: Option<string>, to: string)
    requires !Truthy(stored) || stored == Some(GuestRole)
    ensures Decide(stored, to) == Proceed <==> to == Home
  {
  }

  /** Every path open to staff is open to admin. */
  lemma StaffWithinAdmin(to: string)
    ensures Decide(Some("staff"), to) == Proceed ==> Decide(Some("admin"), to) == Proceed
  {
  }

  /** Staff may go to exactly "/dashboard" and "/inventory". */
  lemma StaffPathsExact(to: string)
    ensures Decide(Some("staff"), to) == Proceed <==> to == "/dashboard" || to == "/inventory"
  {
  }

  /** Admin may go to exactly its six listed paths. */
  lemma AdminPathsExact(to: string)
    ensures Decide(Some("admin"), to) == Proceed <==>
      to in {"/dashboard", "/inventory", "/finance", "/client", "/vendor", "/staff-freelancer"}
  {
  }

  /**
    Paths are compared exactly, never by prefix: a path that extends an
    allowed one is refused unless it is itself listed.
   */
  lemma NoPrefixMatching(role: string, p: string, suffix: string)
    requires p in Permissions(role) && suffix != ""
    requires p + suffix !in Permissions(role)
    ensures Decide(Some(role), p) == Proceed
    ensures Decide(Some(role), p + suffix) == Redirect(Home)
  {
  }

  /** For instance, staff reaches "/inventory" but not "/inventory/5". */
  lemma NoPrefixMatchingExample()
    ensures Decide(Some("staff"), "/inventory") == Proceed
    ensures Decide(Some("staff"), "/inventory/5") == Redirect(Home)
  {
    StaffPathsExact("/inventory");
    StaffPathsExact("/inventory/5");
  }

  /** Roles are compared case-sensitively: "Admin" is not "admin" and is refused everywhere. */
  lemma RolesAreCaseSensitive(to: string)
    ensures Decide(Some("Admin"), to) == Redirect(Home)
    ensures Decide(Some("admin"), "/finance") == Proceed
  {
    assert "Admin"[0] != "admin"[0];
    assert "/finance" == AdminPaths[2];
  }

  /** What the guard as written does: proceed, redirect, or throw out of the guard. */
  datatype GuardOutcome = Next | NextTo(path: string) | ThrowsTypeError

  /** The members every object inherits from Object.prototype (section 20.1.3 of ECMA-262, with Annex B). */
  const ObjectPrototypeNames: set<string> := {
    "constructor", "hasOwnProperty", "isPrototypeOf", "propertyIsEnumerable",
    "toLocaleString", "toString", "valueOf", "__proto__",
    "__defineGetter__", "__defineSetter__", "__lookupGetter__", "__lookupSetter__"
  }

  /**
    The guard as the source writes it. `rolePermissions[userRole]` is a plain
    property read on an object literal, so a role naming a member every
    JavaScript object inherits ("constructor", "toString", ...) yields that
    member, which is truthy; `|| []` then keeps it, and calling `.includes`
    on it throws a TypeError out of the guard instead of redirecting.
   */
  function RoleGuardAsWritten(stored: Option<string>, to: string): (g: GuardOutcome)
    ensures g.ThrowsTypeError? <==> EffectiveRole(stored) in ObjectPrototypeNames
  {
    var role := EffectiveRole(stored);
    if role in ObjectPrototypeNames then ThrowsTypeError
    else if to in Permissions(role) then Next
    else NextTo(Home)
  }

  /** A stored role of "constructor" makes the guard throw rather than redirect. */
  lemma AsWrittenThrowsOnInheritedName()
    ensures RoleGuardAsWritten(Some("constructor"), Home) == ThrowsTypeError
    ensures Decide(Some("constructor"), Home) == Redirect(Home)
  {
    assert "constructor" !in KnownRoles;
  }

  /** For every other role the source and the corrected guard agree. */
  lemma AsWrittenAgreesOtherwise(stored: Option<string>, to: string)
    requires EffectiveRole(stored) !in ObjectPrototypeNames
    ensures Decide(stored, to) == Proceed ==> RoleGuardAsWritten(stored, to) == Next
    ensures Decide(stored, to) == Redirect(Home) ==> RoleGuardAsWritten(stored, to) == NextTo(Home)
  {
  }
}

=== FILE: lists.dfy ===
/**
  `Array.prototype.filter(x => key(x) !== k)`: the list operation the stores
  use to drop a deleted record from their cached collection.
 */
module Lists {

  /** The elements of `xs` whose key differs from `k`, in their original order. */
  function Without<T(!new), K(==)>(xs: seq<T>, key: T -> K, k: K): (r: seq<T>)
    ensures |r| <= |xs|
    ensures forall x :: x in r <==> x in xs && key(x) != k
    decreases |xs|
  {
    if |xs| == 0 then []
    else if key(xs[0]) == k then Without(xs[1..], key, k)
    else [xs[0]] + Without(xs[1..], key, k)
  }

  /** `x` occurs somewhere before `y` in `s`. */
  ghost predicate Before<T>(s: seq<T>, x: T, y: T) {
    exists i, j :: 0 <= i < j < |s| && s[i] == x && s[j] == y
  }

  /** Filtering a concatenation filters each part: the filter works element by element. */
  lemma {:induction false} WithoutAppend<T(!new), K>(a: seq<T>, b: seq<T>, key: T -> K, k: K)
    ensures Without(a + b, key, k) == Without(a, key, k) + Without(b, key, k)
    decreases |a|
  {
    if |a| == 0 {
      assert a + b == b;
    } else {
      assert (a + b)[0] == a[0];
      assert (a + b)[1..] == a[1..] + b;
      WithoutAppend(a[1..], b, key, k);
    }
  }

  /** Filtering out a key that no element carries leaves the list exactly as it was. */
  lemma {:induction false} WithoutAbsent<T(!new), K>(xs: seq<T>, key: T -> K, k: K)
    requires forall x :: x in xs ==> key(x) != k
    ensures Without(xs, key, k) == xs
    decreases |xs|
  {
    if |xs| != 0 {
      assert xs[0] in xs;
      assert forall x :: x in xs[1..] ==> x in xs;
      WithoutAbsent(xs[1..], key, k);
      assert [xs[0]] + xs[1..] == xs;
    }
  }

  /** Filtering twice by the same key is filtering once. */
  lemma WithoutIdempotent<T(!new), K>(xs: seq<T>, key: T -> K, k: K)
    ensures Without(Without(xs, key, k), key, k) == Without(xs, key, k)
  {
    WithoutAbsent(Without(xs, key, k), key, k);
  }

  /** Two surviving elements keep their relative order. */
  lemma {:induction false} WithoutKeepsOrder<T(!new), K>(xs: seq<T>, key: T -> K, k: K, x: T, y: T)
    requires Before(xs, x, y) && key(x) != k && key(y) != k
    ensures Before(Without(xs, key, k), x, y)
    decreases |xs|
  {
    var i, j :| 0 <= i < j < |xs| && xs[i] == x && xs[j] == y;
    var rest := Without(xs[1..], key, k);
    if i == 0 {
      assert y == xs[1..][j - 1];
      assert y in rest;
      var j' :| 0 <= j' < |rest| && rest[j'] == y;
      var r := [xs[0]] + rest;
      assert r[0] == x && r[j' + 1] == y;
    } else {
      assert xs[1..][i - 1] == x && xs[1..][j - 1] == y;
      WithoutKeepsOrder(xs[1..], key, k, x, y);
      var i', j' :| 0 <= i' < j' < |rest| && rest[i'] == x && rest[j'] == y;
      if key(xs[0]) != k {
        var r := [xs[0]] + rest;
        assert r[i' + 1] == x && r[j' + 1] == y;
      }
    }
  }
}

=== FILE: purchase_order.dfy ===
/**
  The purchase-order store of src/stores/purchaseOrder.ts, the pattern every
  domain store follows: each action marks the store busy, clears the error,
  applies the backend's answer to one field, and ends idle.
 */
module PurchaseOrderStore {
  import opened Common
  import Lists
  import Decimal

  datatype PurchaseOrderItem = PurchaseOrderItem(
    id: int, tempId: string, title: string, volume: int, unit: string,
    pricePerUnit: int, description: string, sum: int)

  datatype PurchaseOrder = PurchaseOrder(
    id: int, companyName: string, companyAddress: string, receiver: string,
    items: seq<PurchaseOrderItem>, terms: string, placeSigned: string,
    dateCreated: string, dateSigned: string, signee: string, noPo: string)

  datatype State = State(
    loading: bool,
    error: Option<string>,
    purchaseOrders: seq<PurchaseOrder>,
    selectedPurchaseOrders: seq<PurchaseOrder>,
    selectedPurchaseOrder: Option<PurchaseOrder>,
    refreshKey: nat)

  const Initial := State(false, None, [], [], None, 0)

  const FetchAllFailure := "Failed to fetch purchase orders."
  const FetchDetailFailure := "Failed to fetch purchase order detail."
  const DeleteFailure := "Failed to mark purchase order as deleted."
  const PdfMissing := "PDF data not found in response"
  const DownloadFailurePrefix := "Failed to download PDF: "

  function Begin(s: State): (t: State) {
    s.(loading := true, error := None)
  }

  /** The collection a successful delete of `id` leaves behind. */
  function RemoveOrder(orders: seq<PurchaseOrder>, id: int): (rest: seq<PurchaseOrder>) {
    Lists.Without(orders, (o: PurchaseOrder) => o.id, id)
  }

  /**
    `create(body, token)`: true exactly when the backend accepted the order;
    the cached orders are not touched (the page fetches them again).
   */
  function Create<T>(s: State, r: Response<T>): (out: Completed<State, bool>)
    ensures !out.state.loading
    ensures out.returned <==> r.Succeeded()
    ensures out.state.purchaseOrders == s.purchaseOrders
    ensures out.state.selectedPurchaseOrders == s.selectedPurchaseOrders
    ensures out.state.selectedPurchaseOrder == s.selectedPurchaseOrder
    ensures out.state.refreshKey == s.refreshKey
    ensures r.Replied? ==> out.state.error == None
    ensures r.Threw? ==> out.state.error == Some(r.error.message)
  {
    var t := Begin(s);
    match r
    case Replied(ok, _, _) => Completed(t.(loading := false), ok)
    case Threw(e) => Completed(t.(error := Some(e.message)).(loading := false), false)
  }

  /** `data.data || []`: the payload list, or the empty list when the envelope has none. */
  function ListOrEmpty(data: Option<seq<PurchaseOrder>>): (orders: seq<PurchaseOrder>)
    ensures forall o :: o in orders <==> data.Some? && o in data.value
    ensures data.Some? ==> |orders| == |data.value|
  {
    match data
    case Some(os) => os
    case None => []
  }

  /** `fetchAll(token)`: replaces the cached orders with the payload, or with none when it is absent. */
  function FetchAll(s: State, r: Response<Option<seq<PurchaseOrder>>>): (out: Completed<State, bool>)
    ensures !out.state.loading
    ensures out.returned <==> r.Succeeded()
    ensures r.Succeeded() ==> out.state.purchaseOrders == ListOrEmpty(r.data) && out.state.error == None
    ensures !r.Succeeded() ==> out.state.purchaseOrders == s.purchaseOrders
    ensures r.Refused() ==> out.state.error == Some(OrElse(r.message, FetchAllFailure))
    ensures r.Threw? ==> out.state.error == Some(r.error.message)
    ensures out.state.selectedPurchaseOrder == s.selectedPurchaseOrder && out.state.refreshKey == s.refreshKey
  {
    var t := Begin(s);
    match r
    case Replied(ok, data, message) =>
      if ok then Completed(t.(purchaseOrders := ListOrEmpty(data)).(loading := false), true)
      else Completed(t.(error := Some(OrElse(message, FetchAllFailure))).(loading := false), false)
    case Threw(e) => Completed(t.(error := Some(e.message)).(loading := false), false)
  }

  /**
    `fetchDetail(id, token)`: forgets the selected order before asking, and
    selects the payload only when the backend answers with success.
   */
  function FetchDetail(s: State, r: Response<Option<PurchaseOrder>>): (out: Completed<State, bool>)
    ensures !out.state.loading
    ensures out.returned <==> r.Succeeded()
    ensures r.Succeeded() ==> out.state.selectedPurchaseOrder == r.data && out.state.error == None
    ensures !r.Succeeded() ==> out.state.selectedPurchaseOrder == None
    ensures r.Refused() ==> out.state.error == Some(OrElse(r.message, FetchDetailFailure))
    ensures r.Threw? ==> out.state.error == Some(r.error.message)
    ensures out.state.purchaseOrders == s.purchaseOrders && out.state.refreshKey == s.refreshKey
  {
    var t := Begin(s).(selectedPurchaseOrder := None);
    match r
    case Replied(ok, data, message) =>
      if ok then Completed(t.(selectedPurchaseOrder := data).(loading := false), true)
      else Completed(t.(error := Some(OrElse(message, FetchDetailFailure))).(loading := false), false)
    case Threw(e) => Completed(t.(error := Some(e.message)).(loading := false), false)
  }

  /**
    `deletePurchaseOrder(id, token)`: on success drops every order with that
    id, keeps the others in order, and bumps `refreshKey` so the page redraws.
   */
  function DeletePurchaseOrder<T>(s: State, id: int, r: Response<T>): (out: Completed<State, bool>)
    ensures !out.state.loading
    ensures out.returned <==> r.Succeeded()
    ensures r.Succeeded() ==>
      && (forall o :: o in out.state.purchaseOrders <==> o in s.purchaseOrders && o.id != id)
      && out.state.refreshKey == s.refreshKey + 1
      && out.state.error == None
    ensures !r.Succeeded() ==> out.state.purchaseOrders == s.purchaseOrders && out.state.refreshKey == s.refreshKey
    ensures r.Refused() ==> out.state.error == Some(OrElse(r.message, DeleteFailure))
    ensures r.Threw? ==> out.state.error == Some(r.error.message)
    ensures out.state.selectedPurchaseOrder == s.selectedPurchaseOrder
  {
    var t := Begin(s);
    match r
    case Replied(ok, _, message) =>
      if ok then
        var t := t.(purchaseOrders := RemoveOrder(t.purchaseOrders, id));
        Completed(t.(refreshKey := t.refreshKey + 1).(loading := false), true)
      else Completed(t.(error := Some(OrElse(message, DeleteFailure))).(loading := false), false)
    case Threw(e) => Completed(t.(error := Some(e.message)).(loading := false), false)
  }

  /** A successful delete keeps the surviving orders in their original relative order. */
  lemma DeleteKeepsOrder<T>(s: State, id: int, r: Response<T>, x: PurchaseOrder, y: PurchaseOrder)
    requires r.Succeeded()
    requires Lists.Before(s.purchaseOrders, x, y) && x.id != id && y.id != id
    ensures Lists.Before(DeletePurchaseOrder(s, id, r).state.purchaseOrders, x, y)
  {
    Lists.WithoutKeepsOrder(s.purchaseOrders, (o: PurchaseOrder) => o.id, id, x, y);
  }

  /** Deleting an id no cached order carries changes only `refreshKey`. */
  lemma DeleteAbsentKeepsOrders<T>(s: State, id: int, r: Response<T>)
    requires r.Succeeded()
    requires forall o :: o in s.purchaseOrders ==> o.id != id
    ensures DeletePurchaseOrder(s, id, r).state.purchaseOrders == s.purchaseOrders
  {
    Lists.WithoutAbsent(s.purchaseOrders, (o: PurchaseOrder) => o.id, id);
  }

  /** Deleting the same id twice leaves the same orders as deleting it once; only `refreshKey` moves on. */
  lemma DeleteTwiceIsDeleteOnce<T>(s: State, id: int, r1: Response<T>, r2: Response<T>)
    requires r1.Succeeded() && r2.Succeeded()
    ensures var once := DeletePurchaseOrder(s, id, r1).state;
            var twice := DeletePurchaseOrder(once, id, r2).state;
            twice.purchaseOrders == once.purchaseOrders && twice.refreshKey == s.refreshKey + 2
  {
    Lists.WithoutIdempotent(s.purchaseOrders, (o: PurchaseOrder) => o.id, id);
  }

  /** The `data` object of a successful download answer. */
  datatype PdfPayload = PdfPayload(pdf: Option<string>, fileName: Option<string>)

  /** The outcomes of the download request, which reads the body differently from the other actions. */
  datatype DownloadResponse =
    | Refused(message: Option<string>, statusText: string)
    | Delivered(data: Option<PdfPayload>)
    | Failed(error: JsError)

  /** The file offered to the browser: its name and its base64 content. */
  datatype PdfFile = PdfFile(fileName: string, base64: string)

  const FilePrefix := "purchase_order_"
  const FileSuffix := ".pdf"

  /** The name used when the backend sends none: `purchase_order_<id>.pdf`. */
  function FallbackFileName(id: int): (name: string)
    ensures |name| >= |FilePrefix| + 1 + |FileSuffix|
    ensures name[..|FilePrefix|] == FilePrefix
    ensures name[|name| - |FileSuffix|..] == FileSuffix
    ensures var digits := name[|FilePrefix|..|name| - |FileSuffix|];
            Decimal.IsIntLiteral(digits) && Decimal.ParseInt(digits) == id
  {
    var digits := Decimal.IntToString(id);
    var name := FilePrefix + digits + FileSuffix;
    assert name[|FilePrefix|..|name| - |FileSuffix|] == digits;
    Decimal.IntToStringRoundTrip(id);
    name
  }

  /**
    `downloadPurchaseOrder(id, token)`: offers the PDF when the answer carries
    one (the source returns true exactly then); every failure becomes the
    store's error.
   */
  function DownloadPurchaseOrder(s: State, id: int, r: DownloadResponse): (out: Completed<State, Option<PdfFile>>)
    ensures !out.state.loading
    ensures out.state.purchaseOrders == s.purchaseOrders && out.state.refreshKey == s.refreshKey
    ensures out.state.selectedPurchaseOrder == s.selectedPurchaseOrder
    ensures out.returned.Some? <==> r.Delivered? && r.data.Some? && Truthy(r.data.value.pdf)
    ensures out.returned.Some? ==>
      && out.returned.value.base64 == r.data.value.pdf.value
      && out.returned.value.fileName == OrElse(r.data.value.fileName, FallbackFileName(id))
      && out.state.error == None
    ensures r.Delivered? && out.returned.None? ==> out.state.error == Some(PdfMissing)
    ensures r.Refused? ==> out.state.error == Some(OrElse(r.message, DownloadFailurePrefix + r.statusText))
    ensures r.Failed? ==> out.state.error == Some(r.error.message)
  {
    var t := Begin(s);
    match r
    case Refused(message, statusText) =>
      Completed(t.(error := Some(OrElse(message, DownloadFailurePrefix + statusText))).(loading := false), None)
    case Delivered(data) =>
      if data.Some? && Truthy(data.value.pdf) then
        var file := PdfFile(OrElse(data.value.fileName, FallbackFileName(id)), data.value.pdf.value);
        Completed(t.(loading := false), Some(file))
      else
        Completed(t.(error := Some(PdfMissing)).(loading := false), None)
    case Failed(e) => Completed(t.(error := Some(e.message)).(loading := false), None)
  }

  /** Distinct orders get distinct fallback file names. */
  lemma FallbackFileNameInjective(a: int, b: int)
    ensures FallbackFileName(a) == FallbackFileName(b) ==> a == b
  {
  }

  /** One action on the store, with the backend's answer. */
  datatype Event =
    | CreateEvent(create: Response<()>)
    | FetchAllEvent(all: Response<Option<seq<PurchaseOrder>>>)
    | FetchDetailEvent(detail: Response<Option<PurchaseOrder>>)
    | DeleteEvent(id: int, delete: Response<()>)
    | DownloadEvent(downloadId: int, download: DownloadResponse)

  function Step(s: State, ev: Event): (t: State) {
    match ev
    case CreateEvent(r) => Create(s, r).state
    case FetchAllEvent(r) => FetchAll(s, r).state
    case FetchDetailEvent(r) => FetchDetail(s, r).state
    case DeleteEvent(id, r) => DeletePurchaseOrder(s, id, r).state
    case DownloadEvent(id, r) => DownloadPurchaseOrder(s, id, r).state
  }

  /** Every action clears the error at its start and ends idle, so neither earlier flag shows in the result. */
  lemma StepForgetsPriorFlags(s: State, e: Option<string>, busy: bool, ev: Event)
    ensures Step(s.(error := e, loading := busy), ev) == Step(s, ev)
    ensures !Step(s, ev).loading
  {
  }

  /** No action ever changes `selectedPurchaseOrders`, and only a delete moves `refreshKey`. */
  lemma StepFrames(s: State, ev: Event)
    ensures Step(s, ev).selectedPurchaseOrders == s.selectedPurchaseOrders
    ensures !ev.DeleteEvent? ==> Step(s, ev).refreshKey == s.refreshKey
  {
  }
}

=== FILE: session.dfy ===
/**
  The session store of src/stores/auth.ts. Each action is a pure transformer
  of the store's state; the backend's answer (including a token that fails to
  decode) arrives as a `Response` value.
 */
module AuthStore {
  import opened Common

  datatype User = User(username: string, name: string, role: string)

  datatype Session = Session(loading: bool, error: Option<string>, user: Option<User>, token: Option<string>)

  const Initial := Session(false, None, None, None)

  /** The claims read from a decoded token; a claim may be missing. */
  datatype Claims = Claims(sub: Option<string>, name: Option<string>, role: Option<string>)

  /** A login answer: the token as sent and the claims it decodes to. */
  datatype Credential = Credential(token: string, claims: Claims)

  const GuestUser := User("guest", "guest", "guest")
  const GuestToken := "guest"
  const RegisterFailure := "Gagal menambahkan user: "
  const RolesFailure := "Gagal mendapatkan daftar role: "

  /** The first two statements of every action: mark the store busy and forget the last error. */
  function Begin(s: Session): (t: Session) {
    s.(loading := true, error := None)
  }

  /** The user record built from the claims; a missing or empty claim becomes "". */
  function UserFromClaims(c: Claims): (u: User)
    ensures Truthy(c.sub) ==> u.username == c.sub.value
    ensures Truthy(c.name) ==> u.name == c.name.value
    ensures Truthy(c.role) ==> u.role == c.role.value
    ensures u.role == "" <==> !Truthy(c.role)
  {
    User(OrElse(c.sub, ""), OrElse(c.name, ""), OrElse(c.role, ""))
  }

  /** The user and the token are set together or kept together. */
  predicate Paired(s: Session) {
    s.user.Some? <==> s.token.Some?
  }

  /** `login(body)`: true exactly when the backend accepted the credentials. */
  function Login(s: Session, r: Response<Credential>): (out: Completed<Session, bool>)
    ensures !out.state.loading
    ensures out.returned <==> r.Succeeded()
    ensures r.Succeeded() ==> out.state == Session(false, None, Some(UserFromClaims(r.data.claims)), Some(r.data.token))
    ensures !r.Succeeded() ==> out.state.user == s.user && out.state.token == s.token
    ensures r.Refused() ==> out.state.error == None
    ensures r.Threw? ==> out.state.error == Some(r.error.message)
  {
    var t := Begin(s);
    match r
    case Replied(ok, cred, _) =>
      if ok then
        var t := t.(user := Some(UserFromClaims(cred.claims))).(token := Some(cred.token));
        Completed(t.(loading := false), true)
      else
        Completed(t.(loading := false), false)
    case Threw(e) =>
      Completed(t.(error := Some(e.message)).(loading := false), false)
  }

  /** `loginAsAGuest()`: the fixed guest identity, whatever came before. */
  function LoginAsAGuest(s: Session): (t: Session)
    ensures t == Session(false, None, Some(GuestUser), Some(GuestToken))
  {
    var t := Begin(s).(user := None, token := None);
    t.(user := Some(GuestUser), token := Some(GuestToken)).(loading := false)
  }

  /** `logout()`: no identity, no token, no error, not busy. */
  function Logout(s: Session): (t: Session)
    ensures t == Initial
  {
    Begin(s).(user := None, token := None).(loading := false)
  }

  /**
    `register(body)`: creates another user with the current token; the
    session's own identity is never touched. The source's `finally` sets
    `loading` to true, so the store stays busy after every outcome.
   */
  function Register<T>(s: Session, r: Response<T>): (out: Completed<Session, bool>)
    ensures out.state.loading
    ensures out.state.user == s.user && out.state.token == s.token
    ensures out.returned <==> r.Succeeded()
    ensures r.Replied? ==> out.state.error == None
    ensures r.Threw? ==> out.state.error == Some(RegisterFailure + r.error.message)
  {
    var t := Begin(s);
    match r
    case Replied(ok, _, _) => Completed(t.(loading := true), ok)
    case Threw(e) => Completed(t.(error := Some(RegisterFailure + e.message)).(loading := true), false)
  }

  /**
    `getRoles()`: hands back the role listing when the backend sends it and
    nothing otherwise; only a thrown request leaves an error behind.
   */
  function GetRoles<T>(s: Session, r: Response<T>): (out: Completed<Session, Option<T>>)
    ensures !out.state.loading
    ensures out.state.user == s.user && out.state.token == s.token
    ensures out.returned.Some? <==> r.Succeeded()
    ensures r.Succeeded() ==> out.returned == Some(r.data)
    ensures r.Replied? ==> out.state.error == None
    ensures r.Threw? ==> out.state.error == Some(RolesFailure + r.error.message)
  {
    var t := Begin(s);
    match r
    case Replied(ok, data, _) =>
      if ok then Completed(t.(loading := false), Some(data))
      else Completed(t.(loading := false), None)
    case Threw(e) => Completed(t.(error := Some(RolesFailure + e.message)).(loading := false), None)
  }

  /** One action on the session store, with the backend's answer where it makes a request. */
  datatype Event =
    | LoginEvent(login: Response<Credential>)
    | GuestLoginEvent
    | LogoutEvent
    | RegisterEvent(register: Response<string>)
    | GetRolesEvent(roles: Response<seq<string>>)

  function Step(s: Session, ev: Event): (t: Session) {
    match ev
    case LoginEvent(r) => Login(s, r).state
    case GuestLoginEvent => LoginAsAGuest(s)
    case LogoutEvent => Logout(s)
    case RegisterEvent(r) => Register(s, r).state
    case GetRolesEvent(r) => GetRoles(s, r).state
  }

  function Run(s: Session, evs: seq<Event>): (t: Session)
    decreases |evs|
  {
    if |evs| == 0 then s else Run(Step(s, evs[0]), evs[1..])
  }

  /** Every action keeps user and token set together or unset together. */
  lemma StepKeepsPaired(s: Session, ev: Event)
    requires Paired(s)
    ensures Paired(Step(s, ev))
  {
  }

  /** Every session reachable from the initial one has user and token set together or unset together. */
  lemma {:induction false} RunKeepsPaired(s: Session, evs: seq<Event>)
    requires Paired(s)
    ensures Paired(Run(s, evs))
    decreases |evs|
  {
    if |evs| != 0 {
      StepKeepsPaired(s, evs[0]);
      RunKeepsPaired(Step(s, evs[0]), evs[1..]);
    }
  }

  /** Every action clears the error at its start: the prior error and busy flag never leak into the result. */
  lemma StepForgetsPriorError(s: Session, e: Option<string>, busy: bool, ev: Event)
    ensures Step(s.(error := e, loading := busy), ev) == Step(s, ev)
  {
  }

  /** Every action but `register` leaves the store idle; `register` always leaves it busy. */
  lemma StepSettles(s: Session, ev: Event)
    ensures Step(s, ev).loading <==> ev.RegisterEvent?
  {
  }

  /** Logging out twice is logging out once. */
  lemma LogoutIdempotent(s: Session)
    ensures Logout(Logout(s)) == Logout(s)
  {
  }

  /** A failed login, whether refused or thrown, keeps whoever was logged in. */
  lemma FailedLoginKeepsIdentity(s: Session, r: Response<Credential>)
    requires !r.Succeeded()
    ensures Login(s, r).state.user == s.user && Login(s, r).state.token == s.token
    ensures !Login(s, r).returned
  {
  }
}

=== FILE: vendor.dfy ===
/**
  The vendor store of src/stores/vendor.ts. Unlike the purchase-order store
  it takes the payload of a listing whatever the HTTP status, and its
  actions differ in what they hand back on failure.
 */
module VendorStore {
  import opened Common
  import Lists

  /** A vendor record; the two dates are kept as the backend's text. */
  datatype Vendor = Vendor(
    id: string, name: string, contact: string, email: string, address: string,
    service: string, description: string, createdAt: string, updatedAt: string,
    createdBy: string, updatedBy: string)

  datatype State = State(vendors: seq<Vendor>, loading: bool, error: Option<string>, currentVendor: Option<Vendor>)

  const Initial := State([], false, None, None)

  const FetchFailure := "Failed to fetch vendors "
  const AddFailure := "Gagal menambahkan vendor: "
  const UpdateFailure := "Gagal mengupdate vendor: "
  const DeleteFailure := "Gagal menghapus vendor: "

  function Begin(s: State): (t: State) {
    s.(loading := true, error := None)
  }

  function RemoveVendor(vendors: seq<Vendor>, id: string): (rest: seq<Vendor>) {
    Lists.Without(vendors, (v: Vendor) => v.id, id)
  }

  /**
    `getVendors(token)`: takes the envelope's list whether or not the status
    was a success; only a thrown request keeps the old list. The error text
    embeds the whole error (`${err}`), name included.
   */
  function GetVendors(s: State, r: Response<seq<Vendor>>): (t: State)
    ensures !t.loading && t.currentVendor == s.currentVendor
    ensures r.Replied? ==> t.vendors == r.data && t.error == None
    ensures r.Threw? ==> t.vendors == s.vendors && t.error == Some(FetchFailure + ErrorToString(r.error))
  {
    var t := Begin(s);
    match r
    case Replied(_, data, _) => t.(vendors := data).(loading := false)
    case Threw(e) => t.(error := Some(FetchFailure + ErrorToString(e))).(loading := false)
  }

  /** `getVendorById(token, id)`: the envelope's vendor, if any, becomes the current one, whatever the status. */
  function GetVendorById(s: State, r: Response<Option<Vendor>>): (t: State)
    ensures !t.loading && t.vendors == s.vendors
    ensures r.Replied? ==> t.currentVendor == r.data && t.error == None
    ensures r.Threw? ==> t.currentVendor == s.currentVendor && t.error == Some(FetchFailure + ErrorToString(r.error))
  {
    var t := Begin(s);
    match r
    case Replied(_, data, _) => t.(currentVendor := data).(loading := false)
    case Threw(e) => t.(error := Some(FetchFailure + ErrorToString(e))).(loading := false)
  }

  /**
    The request URL of `getVendorById` as the source writes it: the path is a
    single-quoted string, so `${id}` is sent literally and `id` is never used.
   */
  function VendorByIdUrlAsWritten(apiUrl: string, id: string): (url: string) {
    apiUrl + "/vendor/${id}"
  }

  /** Every vendor is requested through one and the same URL, whatever its id. */
  lemma AsWrittenUrlIgnoresId(apiUrl: string, a: string, b: string)
    ensures VendorByIdUrlAsWritten(apiUrl, a) == VendorByIdUrlAsWritten(apiUrl, b)
  {
  }

  /** The evidently intended URL, `${apiUrl}/vendor/${id}`, as `deleteVendor` builds its own (src/stores/vendor.ts:131). */
  function VendorByIdUrl(apiUrl: string, id: string): (url: string)
    ensures |url| == |apiUrl| + 8 + |id|
    ensures url[..|apiUrl|] == apiUrl
    ensures url[|apiUrl|..|apiUrl| + 8] == "/vendor/"
    ensures url[|apiUrl| + 8..] == id
  {
    apiUrl + "/vendor/" + id
  }

  /** The intended URL names the vendor: different ids give different URLs. */
  lemma VendorByIdUrlInjective(apiUrl: string, a: string, b: string)
    ensures VendorByIdUrl(apiUrl, a) == VendorByIdUrl(apiUrl, b) ==> a == b
  {
  }

  /**
    `addVendor(body)`: true when the backend accepts, false when it refuses,
    and nothing at all (`undefined`) when the request throws.
   */
  function AddVendor<T>(s: State, r: Response<T>): (out: Completed<State, Option<bool>>)
    ensures !out.state.loading
    ensures out.state.vendors == s.vendors && out.state.currentVendor == s.currentVendor
    ensures r.Replied? ==> out.returned == Some(r.ok) && out.state.error == None
    ensures r.Threw? ==> out.returned == None && out.state.error == Some(AddFailure + r.error.message)
  {
    var t := Begin(s);
    match r
    case Replied(ok, _, _) => Completed(t.(loading := false), Some(ok))
    case Threw(e) => Completed(t.(error := Some(AddFailure + e.message)).(loading := false), None)
  }

  /**
    `updateVendor(body)`: on success reloads the list through `getVendors`,
    whose answer is `refresh`; a refusal or a thrown request returns false
    and keeps the list.
   */
  function UpdateVendor<T>(s: State, r: Response<T>, refresh: Response<seq<Vendor>>): (out: Completed<State, bool>)
    ensures !out.state.loading
    ensures out.returned <==> r.Succeeded()
    ensures !r.Succeeded() ==> out.state.vendors == s.vendors && out.state.currentVendor == s.currentVendor
    ensures r.Refused() ==> out.state.error == None
    ensures r.Threw? ==> out.state.error == Some(UpdateFailure + r.error.message)
  {
    var t := Begin(s);
    match r
    case Replied(ok, _, _) =>
      if ok then Completed(GetVendors(t, refresh).(loading := false), true)
      else Completed(t.(loading := false), false)
    case Threw(e) => Completed(t.(error := Some(UpdateFailure + e.message)).(loading := false), false)
  }

  /** A successful update leaves the store exactly as a fresh `getVendors` with the reload's answer would. */
  lemma UpdateThenReload<T>(s: State, r: Response<T>, refresh: Response<seq<Vendor>>)
    requires r.Succeeded()
    ensures UpdateVendor(s, r, refresh).state == GetVendors(s, refresh)
  {
  }

  /**
    `deleteVendor(id)`: on success drops every vendor with that id and keeps
    the others in order; a refusal changes nothing but the cleared error.
   */
  function DeleteVendor<T>(s: State, id: string, r: Response<T>): (t: State)
    ensures !t.loading && t.currentVendor == s.currentVendor
    ensures r.Succeeded() ==> (forall v :: v in t.vendors <==> v in s.vendors && v.id != id)
    ensures !r.Succeeded() ==> t.vendors == s.vendors
    ensures r.Replied? ==> t.error == None
    ensures r.Threw? ==> t.error == Some(DeleteFailure + r.error.message)
  {
    var t := Begin(s);
    match r
    case Replied(ok, _, _) =>
      if ok then t.(vendors := RemoveVendor(t.vendors, id)).(loading := false)
      else t.(loading := false)
    case Threw(e) => t.(error := Some(DeleteFailure + e.message)).(loading := false)
  }

  /** A successful delete keeps the surviving vendors in their original relative order. */
  lemma DeleteVendorKeepsOrder<T>(s: State, id: string, r: Response<T>, x: Vendor, y: Vendor)
    requires r.Succeeded()
    requires Lists.Before(s.vendors, x, y) && x.id != id && y.id != id
    ensures Lists.Before(DeleteVendor(s, id, r).vendors, x, y)
  {
    Lists.WithoutKeepsOrder(s.vendors, (v: Vendor) => v.id, id, x, y);
  }

  /** An ok delete never looks at the body: any two ok answers leave the same state. */
  lemma DeleteVendorIgnoresOkBody<T>(s: State, id: string, d1: T, m1: Option<string>, d2: T, m2: Option<string>)
    ensures DeleteVendor(s, id, Replied(true, d1, m1)) == DeleteVendor(s, id, Replied(true, d2, m2))
    ensures DeleteVendor(s, id, Replied(true, d1, m1)).error == None
  {
  }

  /** One action on the store, with the backend's answers. */
  datatype Event =
    | GetVendorsEvent(list: Response<seq<Vendor>>)
    | GetVendorByIdEvent(one: Response<Option<Vendor>>)
    | AddVendorEvent(add: Response<Vendor>)
    | UpdateVendorEvent(update: Response<Vendor>, refresh: Response<seq<Vendor>>)
    | DeleteVendorEvent(id: string, delete: Response<()>)

  function Step(s: State, ev: Event): (t: State) {
    match ev
    case GetVendorsEvent(r) => GetVendors(s, r)
    case GetVendorByIdEvent(r) => GetVendorById(s, r)
    case AddVendorEvent(r) => AddVendor(s, r).state
    case UpdateVendorEvent(r, refresh) => UpdateVendor(s, r, refresh).state
    case DeleteVendorEvent(id, r) => DeleteVendor(s, id, r)
  }

  /** Every action clears the error at its start and ends idle, so neither earlier flag shows in the result. */
  lemma StepForgetsPriorFlags(s: State, e: Option<string>, busy: bool, ev: Event)
    ensures Step(s.(error := e, loading := busy), ev) == Step(s, ev)
    ensures !Step(s, ev).loading
  {
  }
}
